=== FILE: README.md ===
# Virtual marble on a circular track, in Dafny

This project models the numeric core of a Circuit Playground program. The
program simulates a marble rolling round a circular track under the board's
tilt and lights the ring of ten pixels around the marble's position. The model
covers four parts:

- **Polar gravity** (`vector.dfy`, module `VectorMath`). The tilt reading
  (x, y) becomes a direction in [0, 360) and a magnitude.
- **Track physics** (`physics.dfy`, module `TrackPhysics`). This covers the
  tangential acceleration and one pass of the main loop: friction, the change
  of speed, the conversion from metres to degrees, and the two wrap-around
  loops.
- **Rendering** (`render.dfy`, module `Render`). The pixel table gives each
  pixel's angle. From it the model computes the shortest angular distance on
  the circle and the piecewise brightness curve, and returns the frame of ten
  RGB triples.
- **Real arithmetic** (`math.dfy`, module `RealMath`). pi, atan, sin and
  sqrt are carried in a `Math` record. They are constrained only by the laws in
  `Math.Valid`, which are all of the following:
  - 3.14 < pi < 3.15.
  - atan in degrees lies strictly inside (-90, 90).
  - atan in degrees is non-negative exactly for non-negative arguments.
  - atan in degrees gives 0 at 0, 45 at 1 and -45 at -1.
  - sin of an angle in degrees lies in [-1, 1].
  - sin is 0 at 0, 180 and -180 degrees, and 1 at 90 and -270 degrees.
  - sin is positive on (0, 180) and (-360, -180), and negative on (-180, 0) and (180, 360).
  - For v >= 0, sqrt(v) is non-negative and sqrt(v) * sqrt(v) == v.
  - For v > 0, sqrt(v) is positive.

All arithmetic is over exact `real`s. Every operation is modelled as a pure
function. Three methods keep the code's statement order:
- `WrapPosition` holds the two `while` loops that wrap the position. It is proved to compute the functional `Normalize`.
- `AdvanceStep` and `Step` hold the body of the main loop. They are proved to compute the functional `Advance` and `Tick`.

The code's constants appear as Dafny constants with the same values:
- `TrackPhysics.PhysicsTickRate` is `PHYSICS_TICK_RATE` (code.py:5).
- `TrackPhysics.TrackDiameter` is `TRACK_DIAMETER` (code.py:7).
- `TrackPhysics.Friction` is `FRICTION` (code.py:8).
- `TrackPhysics.DeltaT` is `delta_t` (code.py:160).
- `TrackPhysics.Initial` is the starting position and speed, both 0 (code.py:158-159).
- `Render.PixelLocations` is `PIXEL_LOCATIONS` (code.py:9-21).

## Model

| member | source | states |
|---|---|---|
| `VectorMath.Direction` | code.py:24-59 | The result is always in [0, 360). On the y axis it is 90 above the origin and 270 otherwise, including the zero vector. For x < 0 it lies in (90, 270). For x > 0 it lies in (270, 360) below the axis and in [0, 90) on or above it. On the x axis it is exactly 0 for x > 0 and exactly 180 for x < 0. |
| `VectorMath.DirectionUpperHalf` | code.py:34-58 | The direction is below 180 exactly when y > 0, or when y = 0 and x > 0. Both directions of the equivalence are proved. |
| `VectorMath.DirectionExamples` | code.py:43-58 | These are the worked examples in the comments: (1,1) gives 45, (-1,1) gives 135, (-1,-1) gives 225 and (1,-1) gives 315. A vector on the positive y axis gives 90, (1,0) gives 0 and (-1,0) gives 180. |
| `VectorMath.Magnitude` | code.py:62-85 | The result is non-negative and its square is a*a + b*b, so it is the length of the hypotenuse. When one component is zero, the result is the absolute value of the other. |
| `VectorMath.MagnitudeIsHypotenuse` | code.py:73-84 | For all inputs, the zero-case shortcuts give the same value as sqrt(a*a + b*b). |
| `VectorMath.MagnitudeSymmetries` | code.py:73-84 | Negating either component leaves the magnitude unchanged. So does swapping the two components. |
| `VectorMath.MagnitudeZero` | code.py:73-84 | The magnitude is zero exactly for the zero vector. |
| `VectorMath.MagnitudeExample` | code.py:83-84 | The 3-4-5 triangle has hypotenuse 5. |
| `TrackPhysics.Acceleration` | code.py:88-128 | For a non-negative gravity magnitude g, the acceleration lies in [-g, g]. It is 0 when g is 0. |
| `TrackPhysics.AccelerationVanishes` | code.py:120-121 | Relative angles of 0, 180 and -180 give zero acceleration. |
| `TrackPhysics.AccelerationFull` | code.py:120-120 | Relative angles of 90 and -270 pass the full gravity magnitude on. |
| `TrackPhysics.AccelerationSign` | code.py:124-126 | Take position and gravity direction in [0, 360) and gravity present. The acceleration is anti-clockwise (positive) exactly for relative angles in (-360, -180) or (0, 180). It is clockwise exactly for relative angles in (-180, 0) or (180, 360). |
| `TrackPhysics.MetersPerDegree` | code.py:157-157 | One degree of track is a positive length. 360 of them make the circumference pi * 0.035 m. |
| `TrackPhysics.DegreesMoved` | code.py:176-177 | The distance moved in one tick has the sign of the speed. |
| `TrackPhysics.Normalize` | code.py:178-182 | The result is in [0, 360). It is the identity on values already in that range. |
| `TrackPhysics.NormalizeWholeTurns` | code.py:179-182 | Normalizing moves the position by a whole number of turns of 360. |
| `TrackPhysics.NormalizeUnique` | code.py:179-182 | Any value in [0, 360) that is a whole number of turns away from p equals Normalize(p). |
| `TrackPhysics.WrapPosition` | code.py:179-182 | The two loops terminate for every real input. They leave the position in [0, 360), equal to Normalize of the input. |
| `TrackPhysics.Advance` | code.py:165-182 | The physics of one tick under a polar gravity vector. The new position is in [0, 360). After friction, the speed changes by exactly the acceleration times DeltaT. That change is at most the gravity magnitude times DeltaT. The speed rises exactly when the acceleration is positive (anti-clockwise) and falls exactly when it is negative. Under zero gravity the new speed is exactly the old speed times (1 - FRICTION). |
| `TrackPhysics.AdvanceDisplacement` | code.py:174-182 | The position moves by the new speed in degrees times DeltaT, up to whole turns. |
| `TrackPhysics.AdvanceSpeedSign` | code.py:171-173 | Take the marble and the gravity direction in [0, 360) and gravity present. A tick raises the speed left after friction (pushes anti-clockwise) exactly for relative angles in (-360, -180) or (0, 180). It lowers it (pushes clockwise) exactly for relative angles in (-180, 0) or (180, 360). |
| `TrackPhysics.Tick` | code.py:165-182 | One pass of the main loop for the sample (x, y). The position stays in [0, 360). The speed change after friction is bounded by the sample's magnitude times DeltaT. After friction, the speed rises exactly when the sample's acceleration is positive and falls exactly when it is negative. A zero sample only applies friction. |
| `TrackPhysics.AdvanceStep` | code.py:171-182 | The loop's statements in source order, with the wrap loops, compute exactly Advance. |
| `TrackPhysics.Step` | code.py:165-182 | The loop's statements, starting from the raw sample, compute exactly Tick. |
| `TrackPhysics.FirstTickFromRest` | code.py:157-177 | The marble starts at rest at 0 under gravity (0, 1). After one tick its speed is exactly DeltaT and its position is DeltaT / meters_per_degree * DeltaT, strictly between 0 and 1 degree. |
| `TrackPhysics.RestUnderAxisGravity` | code.py:165-182 | A marble at rest at 0 degrees with gravity of any positive strength along +x gets zero acceleration. One tick leaves it at rest at 0. |
| `Render.PixelLocationsOnTrack` | code.py:9-21 | The table's keys are exactly the pixel indices 0..9. Every location is in [0, 360). |
| `Render.Distance` | code.py:137-143 | For a marble and a pixel on the track, the distance lies in [0, 180]. |
| `Render.DistanceSymmetric` | code.py:137-143 | Swapping the marble and the pixel does not change the distance. |
| `Render.DistanceIsShortest` | code.py:137-143 | The distance is at most the gap between the two angles shifted by any whole number of turns. |
| `Render.DistanceAttained` | code.py:137-143 | The distance equals the gap shifted by 0, +1 or -1 turns. Together with DistanceIsShortest, this makes it the true circular distance. |
| `Render.DistanceReflection` | code.py:137-143 | A marble e degrees either side of a pixel is at distance e from it, across the 0/360 seam too. |
| `Render.Multiplier` | code.py:144-151 | At any distance d >= 0 the multiplier is in [0, 1]. It is 1 at distance 0. It is positive exactly when d < 90. |
| `Render.MultiplierDecreasing` | code.py:144-149 | Below 90 degrees the multiplier strictly decreases with distance. The near field dims rapidly and the far field tapers toward 0, with no flat stretch. |
| `Render.MultiplierNonIncreasing` | code.py:144-151 | The multiplier never grows as the distance grows. |
| `Render.MultiplierStepAtTen` | code.py:144-149 | The curve steps down at 10 degrees. Everything nearer is brighter than 0.15, while 10 degrees itself gets 0.05 * 80 / 90. |
| `Render.PixelColor` | code.py:136-152 | Green and blue are always 0. Red is in [0, 255] on the track and 255 when the marble sits on the pixel. At distance 90 or more the pixel is (0, 0, 0). |
| `Render.DrawPixels` | code.py:131-152 | There is a frame exactly when the layout has every index 0..9. The frame then holds one colour per index, each computed from that index's location. |
| `Render.DrawBoardPixels` | code.py:131-152 | With the board's own table and the marble on the track, drawing succeeds. Every pixel has green = blue = 0 and red in [0, 255]. |
| `Render.FullRedOnPixel` | code.py:144-152 | A marble sitting on a pixel lights it (255, 0, 0). |

## Left out

- Reading the accelerometer is left out, and so is the axis remapping that goes with it (code.py:167-168). The caller passes x = -reading[1] and y = reading[0] to `Tick`/`Step`.
- Writing `cp.pixels` is left out, and so is setting `cp.pixels.brightness` (code.py:152, 156). `DrawPixels` returns the frame instead.
- The `while True` shell, `time.sleep`, the debug clock and the prints are left out (code.py:163, 184-200). They are timing and logging, not logic.
- Floating point is not modelled; everything is an exact real. The range results hold for real numbers only. `Direction`, `Normalize`, `WrapPosition`, `Advance`, `Tick`, `AdvanceStep` and `Step` all promise a result in [0, 360). In IEEE doubles, rounding can make the result exactly 360.0. Two examples:
  - `-1e-20 + 360` in the second wrap loop (code.py:181-182);
  - `degrees(atan(-1e-300)) + 360` in `resultant_vector_direction` (code.py:58).
- In IEEE doubles, a huge position would no longer change under `-= 360`, so the wrap loops would not terminate. Over reals they always terminate.
- pi, atan, sin and sqrt are known only through `Math.Valid`. `math.degrees(math.atan(v))` and `math.sin(math.radians(a))` are taken as the primitives `atanDeg` and `sinDeg`, because the code never uses atan or sin without these conversions. The claim that (magnitude·cos, magnitude·sin) gives back (x, y) is not stated, because cos is not used by the code.
- AccelerationSign: requires position and gravity direction in [0, 360), the ranges the function documents. The sine laws cover only (-360, 360); periodicity of sin is not assumed.
- AccelerationVanishes: covers the exact relative angles 0, 180 and -180, not the angles congruent to them modulo 360.
- AccelerationFull: covers the exact relative angles 90 and -270, not the angles congruent to them modulo 360.
- The comment at code.py:122 says that other multiples of 45 degrees give 0.707 of the magnitude. This is not modelled, because `Math.Valid` has no law for sin(45). The comment is also inaccurate at 270 and -90 degrees, where the factor is -1.
- `GRAVITY` (code.py:6) is declared but never used by the code, so it is not modelled.
- The code raises `KeyError` in `draw_pixels` when an index is missing from the table, after it has already written the earlier pixels. The model returns `None` for the whole frame.
- Two guards are deliberately not added, because the code has neither. Pixel locations and the marble position are not normalized before the distance is taken. A non-positive time step is not rejected; the time step is the constant 1/60.

=== FILE: math.dfy ===
/**
 The slice of Python's `math` module that the marble simulation uses, over
 exact reals. The transcendental values cannot be computed here, so they
 travel as a `Math` record and are constrained only by the laws collected in
 `Math.Valid`. The code only ever calls atan and sin through a conversion
 between radians and degrees, so those compositions are the primitives.
 */
module RealMath {

  /**
   pi, `math.degrees(math.atan(v))` as `atanDeg`, `math.sin(math.radians(a))`
   as `sinDeg`, and `math.sqrt` of the host runtime.
   */
  datatype Math = Math(pi: real, atanDeg: real -> real, sinDeg: real -> real, sqrt: real -> real) {

    /** The laws the model relies on; each is a textbook fact about the real functions. */
    ghost predicate Valid() {
      && 3.14 < pi < 3.15
      // atan, in degrees, lies strictly inside (-90, 90) and keeps the sign of its argument
      && (forall v :: -90.0 < atanDeg(v) < 90.0)
      && (forall v :: 0.0 <= atanDeg(v) <==> 0.0 <= v)
      && atanDeg(0.0) == 0.0
      && atanDeg(1.0) == 45.0
      && atanDeg(-1.0) == -45.0
      // sin of an angle in degrees stays within [-1, 1], with its zeros, peaks and signs on (-360, 360)
      && (forall a :: -1.0 <= sinDeg(a) <= 1.0)
      && sinDeg(0.0) == 0.0 && sinDeg(180.0) == 0.0 && sinDeg(-180.0) == 0.0
      && sinDeg(90.0) == 1.0 && sinDeg(-270.0) == 1.0
      && (forall a :: 0.0 < a < 180.0 ==> 0.0 < sinDeg(a))
      && (forall a :: -360.0 < a < -180.0 ==> 0.0 < sinDeg(a))
      && (forall a :: -180.0 < a < 0.0 ==> sinDeg(a) < 0.0)
      && (forall a :: 180.0 < a < 360.0 ==> sinDeg(a) < 0.0)
      // sqrt is the non-negative square root on non-negative arguments
      && (forall v :: 0.0 <= v ==> 0.0 <= sqrt(v) && sqrt(v) * sqrt(v) == v)
      && (forall v :: 0.0 < v ==> 0.0 < sqrt(v))
    }
  }

  function Abs(x: real): (r: real)
    ensures 0.0 <= r
    ensures r == x || r == -x
  {
    if x < 0.0 then -x else x
  }

  /** The product of two positive numbers is positive. */
  lemma MulPositive(a: real, b: real)
    requires 0.0 < a && 0.0 < b
    ensures 0.0 < a * b
  {
  }

  /** A square is never negative, and positive away from zero. */
  lemma SquarePositive(x: real)
    ensures 0.0 <= x * x
    ensures x != 0.0 ==> 0.0 < x * x
  {
  }

  /** Squaring is strictly increasing on the non-negative reals. */
  lemma SquareMonotone(s: real, t: real)
    requires 0.0 <= s < t
    ensures s * s < t * t
  {
    MulPositive(t - s, t + s);
    assert (t - s) * (t + s) == t * t - s * s;
  }

  /** Two non-negative numbers with the same square are equal. */
  lemma SquareInjective(s: real, t: real)
    requires 0.0 <= s && 0.0 <= t
    requires s * s == t * t
    ensures s == t
  {
    if s < t {
      SquareMonotone(s, t);
    } else if t < s {
      SquareMonotone(t, s);
    }
  }

  /** sqrt undoes squaring up to sign. */
  lemma SqrtOfSquare(m: Math, v: real)
    requires m.Valid()
    ensures m.sqrt(v * v) == Abs(v)
  {
    SquarePositive(v);
    assert Abs(v) * Abs(v) == v * v;
    SquareInjective(m.sqrt(v * v), Abs(v));
  }
}

=== FILE: physics.dfy ===
/**
 The marble on its circular track: the tangential `acceleration` of code.py
 and one pass of the main loop's physics (friction, velocity change,
 metres-to-degrees conversion, and the two wrap-around loops).
 */
module TrackPhysics {
  import opened RealMath
  import opened VectorMath

  /** Physics updates per second. */
  const PhysicsTickRate: real := 60.0
  /** Track diameter in metres. */
  const TrackDiameter: real := 0.035
  /** 0 is no friction and 1 stops the marble outright. */
  const Friction: real := 0.01
  /** Seconds simulated by one tick. */
  const DeltaT: real := 1.0 / PhysicsTickRate

  /** Length of one degree of track, in metres. */
  function MetersPerDegree(m: Math): (mpd: real)
    requires m.Valid()
    ensures 0.0 < mpd
    ensures mpd * 360.0 == m.pi * TrackDiameter
  {
    m.pi * TrackDiameter / 360.0
  }

  /** A factor in [-1, 1] scales a non-negative magnitude to within itself. */
  lemma ScaleWithin(s: real, g: real)
    requires -1.0 <= s <= 1.0
    ensures 0.0 <= g ==> -g <= s * g <= g
  {
  }

  /**
   Tangential acceleration of a marble at `position` under gravity pointing
   at `gDirection`: positive means anti-clockwise. The relative angle is not
   normalized before taking the sine.
   */
  function Acceleration(m: Math, position: real, gDirection: real, gMagnitude: real): (acc: real)
    requires m.Valid()
    ensures 0.0 <= gMagnitude ==> -gMagnitude <= acc <= gMagnitude
    ensures gMagnitude == 0.0 ==> acc == 0.0
  {
    var sine := m.sinDeg(gDirection - position);
    ScaleWithin(sine, gMagnitude);
    var acc := sine * gMagnitude;
    assert 0.0 <= gMagnitude ==> -gMagnitude <= acc <= gMagnitude;
    acc
  }

  /** Relative angles 0, 180 and -180 give no acceleration. */
  lemma AccelerationVanishes(m: Math, position: real, gDirection: real, gMagnitude: real)
    requires m.Valid()
    requires gDirection - position == 0.0 || gDirection - position == 180.0 || gDirection - position == -180.0
    ensures Acceleration(m, position, gDirection, gMagnitude) == 0.0
  {
  }

  /** Relative angles 90 and -270 pass the full magnitude on. */
  lemma AccelerationFull(m: Math, position: real, gDirection: real, gMagnitude: real)
    requires m.Valid()
    requires gDirection - position == 90.0 || gDirection - position == -270.0
    ensures Acceleration(m, position, gDirection, gMagnitude) == gMagnitude
  {
  }

  /**
   For a marble and a gravity direction both in [0, 360) and gravity present,
   the acceleration is anti-clockwise exactly for relative angles in
   (-360, -180) or (0, 180), and clockwise exactly for (-180, 0) or (180, 360).
   */
  lemma AccelerationSign(m: Math, position: real, gDirection: real, gMagnitude: real)
    requires m.Valid()
    requires 0.0 <= position < 360.0 && 0.0 <= gDirection < 360.0
    requires 0.0 < gMagnitude
    ensures var relative := gDirection - position;
      0.0 < Acceleration(m, position, gDirection, gMagnitude)
      <==> -360.0 < relative < -180.0 || 0.0 < relative < 180.0
    ensures var relative := gDirection - position;
      Acceleration(m, position, gDirection, gMagnitude) < 0.0
      <==> -180.0 < relative < 0.0 || 180.0 < relative < 360.0
  {
    var relative := gDirection - position;
    assert Acceleration(m, position, gDirection, gMagnitude) == m.sinDeg(relative) * gMagnitude;
    if relative == 0.0 || relative == 180.0 || relative == -180.0 {
      assert m.sinDeg(relative) == 0.0;
    } else if -360.0 < relative < -180.0 || 0.0 < relative < 180.0 {
      assert 0.0 < m.sinDeg(relative);
    } else {
      assert m.sinDeg(relative) < 0.0;
    }
  }

  /** The representative of `p` in [0, 360), equal to `p` modulo 360. */
  function Normalize(p: real): (r: real)
    ensures 0.0 <= r < 360.0
    ensures 0.0 <= p < 360.0 ==> r == p
  {
    p - 360.0 * ((p / 360.0).Floor as real)
  }

  /** Normalize moves `p` by a whole number of turns. */
  lemma NormalizeWholeTurns(p: real) returns (k: int)
    ensures Normalize(p) == p + 360.0 * (k as real)
  {
    k := -((p / 360.0).Floor);
  }

  /** Any value in [0, 360) a whole number of turns away from `p` is Normalize(p). */
  lemma NormalizeUnique(p: real, q: real, k: int)
    requires 0.0 <= q < 360.0
    requires q == p + 360.0 * (k as real)
    ensures Normalize(p) == q
  {
    assert p / 360.0 == q / 360.0 - (k as real);
    assert (p / 360.0).Floor == -k;
  }

  /**
   The two `while` loops of the main loop: subtract 360 while the position is
   at least 360, then add 360 while it is negative.
   */
  method WrapPosition(p: real) returns (r: real)
    ensures 0.0 <= r < 360.0
    ensures r == Normalize(p)
  {
    r := p;
    ghost var k: int := 0;
    while r >= 360.0
      invariant r == p + 360.0 * (k as real)
      decreases r.Floor
    {
      r := r - 360.0;
      k := k - 1;
    }
    while r < 0.0
      invariant r == p + 360.0 * (k as real)
      invariant r < 360.0
      decreases -r.Floor
    {
      r := r + 360.0;
      k := k + 1;
    }
    NormalizeUnique(p, r, k);
  }

  /** The simulation state: angular position in degrees and signed speed in m/s. */
  datatype Marble = Marble(position: real, speed: real)

  /** The marble starts at rest at 0 degrees. */
  const Initial: Marble := Marble(0.0, 0.0)

  /** Degrees travelled in one tick at `speed` metres per second. */
  function DegreesMoved(m: Math, speed: real): (d: real)
    requires m.Valid()
    ensures 0.0 <= d <==> 0.0 <= speed
  {
    var degSpeed := speed / MetersPerDegree(m);
    degSpeed * DeltaT
  }

  /**
   One physics tick under a gravity vector given in polar form: friction, then
   the change of speed from the tangential acceleration, then the position
   advanced by the speed converted to degrees and wrapped into [0, 360).
   */
  function Advance(m: Math, s: Marble, gDirection: real, gMagnitude: real): (r: Marble)
    requires m.Valid()
    ensures 0.0 <= r.position < 360.0
    ensures 0.0 <= gMagnitude ==> Abs(r.speed - s.speed * (1.0 - Friction)) <= gMagnitude * DeltaT
    ensures gMagnitude == 0.0 ==> r.speed == s.speed * (1.0 - Friction)
    ensures r.speed - s.speed * (1.0 - Friction) == Acceleration(m, s.position, gDirection, gMagnitude) * DeltaT
    ensures 0.0 < Acceleration(m, s.position, gDirection, gMagnitude) <==> s.speed * (1.0 - Friction) < r.speed
    ensures Acceleration(m, s.position, gDirection, gMagnitude) < 0.0 <==> r.speed < s.speed * (1.0 - Friction)
  {
    var slowed := s.speed * (1.0 - Friction);
    var speed := slowed + Acceleration(m, s.position, gDirection, gMagnitude) * DeltaT;
    Marble(Normalize(s.position + DegreesMoved(m, speed)), speed)
  }

  /** An advance moves the marble by its new speed times DeltaT, up to whole turns. */
  lemma AdvanceDisplacement(m: Math, s: Marble, gDirection: real, gMagnitude: real) returns (k: int)
    requires m.Valid()
    ensures var r := Advance(m, s, gDirection, gMagnitude);
      r.position == s.position + DegreesMoved(m, r.speed) + 360.0 * (k as real)
  {
    var r := Advance(m, s, gDirection, gMagnitude);
    k := NormalizeWholeTurns(s.position + DegreesMoved(m, r.speed));
  }

  /**
   For a marble and a gravity direction both in [0, 360) and gravity present,
   a tick raises the speed left after friction (pushes anti-clockwise) exactly
   for relative angles in (-360, -180) or (0, 180), and lowers it (pushes
   clockwise) exactly for (-180, 0) or (180, 360).
   */
  lemma AdvanceSpeedSign(m: Math, s: Marble, gDirection: real, gMagnitude: real)
    requires m.Valid()
    requires 0.0 <= s.position < 360.0 && 0.0 <= gDirection < 360.0
    requires 0.0 < gMagnitude
    ensures var relative := gDirection - s.position;
      s.speed * (1.0 - Friction) < Advance(m, s, gDirection, gMagnitude).speed
      <==> -360.0 < relative < -180.0 || 0.0 < relative < 180.0
    ensures var relative := gDirection - s.position;
      Advance(m, s, gDirection, gMagnitude).speed < s.speed * (1.0 - Friction)
      <==> -180.0 < relative < 0.0 || 180.0 < relative < 360.0
  {
    AccelerationSign(m, s.position, gDirection, gMagnitude);
  }

  /** One pass of the main loop for the gravity sample (x, y). */
  function Tick(m: Math, s: Marble, x: real, y: real): (r: Marble)
    requires m.Valid()
    ensures 0.0 <= r.position < 360.0
    ensures Abs(r.speed - s.speed * (1.0 - Friction)) <= Magnitude(m, x, y) * DeltaT
    ensures x == 0.0 && y == 0.0 ==> r.speed == s.speed * (1.0 - Friction)
    ensures 0.0 < Acceleration(m, s.position, Direction(m, x, y), Magnitude(m, x, y)) <==> s.speed * (1.0 - Friction) < r.speed
    ensures Acceleration(m, s.position, Direction(m, x, y), Magnitude(m, x, y)) < 0.0 <==> r.speed < s.speed * (1.0 - Friction)
  {
    Advance(m, s, Direction(m, x, y), Magnitude(m, x, y))
  }

  /**
   The physics statements of the main loop, in order, under a gravity vector
   already in polar form; the wrap-around is done by the loops of
   WrapPosition. It computes exactly Advance.
   */
  method AdvanceStep(m: Math, s: Marble, gDirection: real, gMagnitude: real) returns (r: Marble)
    requires m.Valid()
    ensures r == Advance(m, s, gDirection, gMagnitude)
  {
    var speed := s.speed;
    speed := speed * (1.0 - Friction);
    var marbleAcceleration := Acceleration(m, s.position, gDirection, gMagnitude);
    var deltaV := marbleAcceleration * DeltaT;
    speed := speed + deltaV;
    var degSpeed := speed / MetersPerDegree(m);
    var position := s.position + degSpeed * DeltaT;
    position := WrapPosition(position);
    r := Marble(position, speed);
  }

  /**
   One pass of the main loop for the gravity sample (x, y): the gravity vector
   is put in polar form, then AdvanceStep runs. It computes exactly Tick.
   */
  method Step(m: Math, s: Marble, x: real, y: real) returns (r: Marble)
    requires m.Valid()
    ensures r == Tick(m, s, x, y)
    ensures 0.0 <= r.position < 360.0
  {
    var gDirection := Direction(m, x, y);
    var gMagnitude := Magnitude(m, x, y);
    r := AdvanceStep(m, s, gDirection, gMagnitude);
  }

  /**
   From rest at 0 degrees with gravity (0, 1), pointing at 90 degrees, one tick
   gains exactly DeltaT of speed and moves the marble forward by less than a
   degree, so no wrap-around happens.
   */
  lemma FirstTickFromRest(m: Math)
    requires m.Valid()
    ensures Tick(m, Initial, 0.0, 1.0).speed == DeltaT
    ensures Tick(m, Initial, 0.0, 1.0).position == DeltaT / MetersPerDegree(m) * DeltaT
    ensures 0.0 < Tick(m, Initial, 0.0, 1.0).position < 1.0
  {
  }

  /**
   A marble at rest at 0 degrees with gravity along +x feels no pull along the
   track, so one tick leaves it exactly where it was, at rest.
   */
  lemma RestUnderAxisGravity(m: Math, g: real)
    requires m.Valid()
    requires 0.0 < g
    ensures Acceleration(m, 0.0, Direction(m, g, 0.0), Magnitude(m, g, 0.0)) == 0.0
    ensures Tick(m, Initial, g, 0.0) == Initial
  {
  }
}

=== FILE: render.dfy ===
/**
 The marble's light: `PIXEL_LOCATIONS` and the brightness computation of
 `draw_pixels` in code.py, returning the frame of RGB triples instead of
 writing it to the board's pixels.
 */
module Render {
  import opened RealMath

  datatype Option<T> = None | Some(value: T)

  /** One pixel's colour, channel by channel. */
  datatype Rgb = Rgb(red: real, green: real, blue: real)

  /** Number of pixels in the ring. */
  const PixelCount: int := 10

  /** Angular location of each pixel, in degrees from the USB port. */
  const PixelLocations: map<int, real> :=
    map[0 := 30.0, 1 := 60.0, 2 := 90.0, 3 := 120.0, 4 := 150.0,
        5 := 210.0, 6 := 240.0, 7 := 270.0, 8 := 300.0, 9 := 330.0]

  /** An angle already normalized onto the track. */
  predicate OnTrack(a: real) {
    0.0 <= a < 360.0
  }

  /** The table has exactly the pixel indices as keys, and every location lies on the track. */
  lemma PixelLocationsOnTrack()
    ensures forall i :: i in PixelLocations <==> 0 <= i < PixelCount
    ensures forall i :: i in PixelLocations ==> OnTrack(PixelLocations[i])
  {
  }

  /**
   Shortest angular distance between the marble and a pixel: the absolute
   difference, folded back when it exceeds half a turn.
   */
  function Distance(position: real, location: real): (d: real)
    ensures OnTrack(position) && OnTrack(location) ==> 0.0 <= d <= 180.0
  {
    var relative := Abs(position - location);
    if relative > 180.0 then 360.0 - relative else relative
  }

  /** Distance does not depend on which of the two angles is the marble. */
  lemma DistanceSymmetric(position: real, location: real)
    ensures Distance(position, location) == Distance(location, position)
  {
  }

  /** Distance is no longer than the gap between the two angles taken any whole number of turns apart. */
  lemma DistanceIsShortest(position: real, location: real, k: int)
    requires OnTrack(position) && OnTrack(location)
    ensures Distance(position, location) <= Abs(position - location + 360.0 * (k as real))
  {
  }

  /** ... and it is attained by going round zero times or one turn either way. */
  lemma DistanceAttained(position: real, location: real)
    requires OnTrack(position) && OnTrack(location)
    ensures var d := Distance(position, location);
      d == Abs(position - location) || d == Abs(position - location + 360.0) || d == Abs(position - location - 360.0)
  {
  }

  /**
   A marble `e` degrees to either side of a pixel, measured round the circle
   and across the 0/360 seam if need be, is at distance `e` from it.
   */
  lemma DistanceReflection(position: real, location: real, e: real, k: int)
    requires OnTrack(position) && OnTrack(location)
    requires 0.0 <= e <= 180.0
    requires position == location + e + 360.0 * (k as real) || position == location - e + 360.0 * (k as real)
    ensures Distance(position, location) == e
  {
  }

  /**
   Brightness multiplier at angular distance `d`: steep near-field falloff
   from 1 to 0.15 below 10 degrees, a shallow taper from 0.05 toward 0 below
   90 degrees, and dark beyond.
   */
  function Multiplier(d: real): (b: real)
    ensures 0.0 <= d ==> 0.0 <= b <= 1.0
    ensures d == 0.0 ==> b == 1.0
    ensures 0.0 <= d ==> (0.0 < b <==> d < 90.0)
  {
    if d < 10.0 then 0.15 + 0.85 * (1.0 - d / 10.0)
    else if d < 90.0 then 0.05 * ((90.0 - d) / 90.0)
    else 0.0
  }

  /**
   Within 90 degrees the pixel dims strictly as the marble moves away: no
   stretch of the curve is flat before it reaches 0.
   */
  lemma MultiplierDecreasing(d1: real, d2: real)
    requires 0.0 <= d1 < d2 < 90.0
    ensures Multiplier(d2) < Multiplier(d1)
  {
  }

  /** The farther the marble, the dimmer the pixel. */
  lemma MultiplierNonIncreasing(d1: real, d2: real)
    requires 0.0 <= d1 <= d2
    ensures Multiplier(d2) <= Multiplier(d1)
  {
  }

  /**
   The curve jumps down at 10 degrees: everything nearer is brighter than 0.15,
   while 10 degrees itself gets the far-field value 0.05 * 80 / 90.
   */
  lemma MultiplierStepAtTen(d: real)
    requires 0.0 <= d < 10.0
    ensures 0.15 < Multiplier(d)
    ensures Multiplier(10.0) == 0.05 * 80.0 / 90.0
    ensures Multiplier(10.0) < 0.15
  {
  }

  /** Colour of a pixel at `location` for a marble at `position`: a shade of red. */
  function PixelColor(position: real, location: real): (c: Rgb)
    ensures c.green == 0.0 && c.blue == 0.0
    ensures OnTrack(position) && OnTrack(location) ==> 0.0 <= c.red <= 255.0
    ensures position == location ==> c.red == 255.0
    ensures 90.0 <= Distance(position, location) ==> c == Rgb(0.0, 0.0, 0.0)
  {
    var brightness := Multiplier(Distance(position, location));
    Rgb(255.0 * brightness, 0.0 * brightness, 0.0)
  }

  /**
   The frame for a marble at `position`: one colour per pixel index
   0..PixelCount-1, looked up in `layout`; None when an index is missing from
   the layout, where the lookup would fail.
   */
  function DrawPixels(position: real, layout: map<int, real>): (r: Option<seq<Rgb>>)
    ensures r.Some? <==> forall i :: 0 <= i < PixelCount ==> i in layout
    ensures r.Some? ==> |r.value| == PixelCount
    ensures r.Some? ==> forall i :: 0 <= i < PixelCount ==> r.value[i] == PixelColor(position, layout[i])
  {
    if forall i :: 0 <= i < PixelCount ==> i in layout then
      Some(seq(PixelCount, i requires 0 <= i < PixelCount => PixelColor(position, layout[i])))
    else
      None
  }

  /**
   With the board's own table and the marble on the track, drawing never fails
   and every pixel is a shade of red with its red level in [0, 255].
   */
  lemma DrawBoardPixels(position: real)
    requires OnTrack(position)
    ensures DrawPixels(position, PixelLocations).Some?
    ensures var frame := DrawPixels(position, PixelLocations).value;
      forall i :: 0 <= i < PixelCount ==>
        && frame[i].green == 0.0 && frame[i].blue == 0.0
        && 0.0 <= frame[i].red <= 255.0
  {
  }

  /** The marble sitting on a pixel lights it fully red. */
  lemma FullRedOnPixel(i: int)
    requires 0 <= i < PixelCount
    ensures DrawPixels(PixelLocations[i], PixelLocations).value[i] == Rgb(255.0, 0.0, 0.0)
  {
  }
}

=== FILE: vector.dfy ===
/**
 Polar form of the gravity vector: `resultant_vector_direction` and
 `resultant_vector_magnitude` of code.py, over exact reals.
 */
module VectorMath {
  import opened RealMath

  /**
   Counter-clockwise angle of (x, y) from the +x axis, in [0, 360). A vector on
   the y axis is special-cased to avoid dividing by zero: 90 above the origin,
   270 otherwise (the zero vector included).
   */
  function Direction(m: Math, x: real, y: real): (deg: real)
    requires m.Valid()
    ensures 0.0 <= deg < 360.0
    ensures x == 0.0 && y > 0.0 ==> deg == 90.0
    ensures x == 0.0 && y <= 0.0 ==> deg == 270.0
    ensures x < 0.0 ==> 90.0 < deg < 270.0
    ensures x > 0.0 && y < 0.0 ==> 270.0 < deg < 360.0
    ensures x > 0.0 && 0.0 <= y ==> 0.0 <= deg < 90.0
    ensures x > 0.0 && y == 0.0 ==> deg == 0.0
    ensures x < 0.0 && y == 0.0 ==> deg == 180.0
  {
    if x == 0.0 then
      if y > 0.0 then 90.0 else 270.0
    else
      var deg := m.atanDeg(y / x);
      if x < 0.0 then deg + 180.0
      else if y < 0.0 then deg + 360.0
      else deg
  }

  /**
   The direction lies in the upper half [0, 180) exactly when the vector points
   above the x axis, or along the positive x axis.
   */
  lemma DirectionUpperHalf(m: Math, x: real, y: real)
    requires m.Valid()
    ensures Direction(m, x, y) < 180.0 <==> 0.0 < y || (y == 0.0 && 0.0 < x)
  {
  }

  /** The worked examples in the comments of `resultant_vector_direction`, and the two ends of the x axis. */
  lemma DirectionExamples(m: Math)
    requires m.Valid()
    ensures Direction(m, 1.0, 1.0) == 45.0
    ensures Direction(m, -1.0, 1.0) == 135.0
    ensures Direction(m, -1.0, -1.0) == 225.0
    ensures Direction(m, 1.0, -1.0) == 315.0
    ensures Direction(m, 0.0, 5.0) == 90.0
    ensures Direction(m, 1.0, 0.0) == 0.0
    ensures Direction(m, -1.0, 0.0) == 180.0
  {
  }

  /**
   Length of the hypotenuse of two orthogonal components. The zero cases are
   answered without sqrt; otherwise sqrt(a*a + b*b).
   */
  function Magnitude(m: Math, a: real, b: real): (c: real)
    requires m.Valid()
    ensures 0.0 <= c
    ensures c * c == a * a + b * b
    ensures a == 0.0 ==> c == Abs(b)
    ensures b == 0.0 ==> c == Abs(a)
  {
    if a == 0.0 && b == 0.0 then 0.0
    else if a == 0.0 && b != 0.0 then Abs(b)
    else if a != 0.0 && b == 0.0 then Abs(a)
    else
      m.sqrt(a * a + b * b)
  }

  /** The shortcut branches agree with the general Pythagorean formula. */
  lemma MagnitudeIsHypotenuse(m: Math, a: real, b: real)
    requires m.Valid()
    ensures Magnitude(m, a, b) == m.sqrt(a * a + b * b)
  {
    if a == 0.0 {
      assert a * a + b * b == b * b;
      SqrtOfSquare(m, b);
    } else if b == 0.0 {
      assert a * a + b * b == a * a;
      SqrtOfSquare(m, a);
    }
  }

  /** The magnitude ignores the sign of either component and their order. */
  lemma MagnitudeSymmetries(m: Math, a: real, b: real)
    requires m.Valid()
    ensures Magnitude(m, -a, b) == Magnitude(m, a, b)
    ensures Magnitude(m, a, -b) == Magnitude(m, a, b)
    ensures Magnitude(m, b, a) == Magnitude(m, a, b)
  {
  }

  /** Only the zero vector has magnitude zero. */
  lemma MagnitudeZero(m: Math, a: real, b: real)
    requires m.Valid()
    ensures Magnitude(m, a, b) == 0.0 <==> a == 0.0 && b == 0.0
  {
  }

  /** The 3-4-5 triangle. */
  lemma MagnitudeExample(m: Math)
    requires m.Valid()
    ensures Magnitude(m, 3.0, 4.0) == 5.0
  {
    SquareInjective(Magnitude(m, 3.0, 4.0), 5.0);
  }
}
